=== FILE: README.md ===
# LitVis table core in Dafny

LitVis is a small spreadsheet-like editor. Its cells hold rich-text HTML. This project
models the logic behind the main window and its dialogs as pure functions over immutable
data, and proves what that logic guarantees. The widgets, painting and files are left out.

The parts modelled:

- **Matching** (`checkCondition`): a case-insensitive test of a cell's plain text against
  one value, with the operators "contains", "starts with", "ends with" and "equals".
- **Filter** (`advancedFilter`): shows or hides every row by its conditions, combined with
  AND or OR. **FilterDialog**: adds and removes the dialog's conditions.
- **Rules** and **Render**: the conditional-formatting rules. They are an insertion-ordered
  dict from keyword to colour. The model covers the dialog that edits them, and the
  substitution `paint` applies before it lays out a cell. That substitution wraps every
  occurrence of each keyword in a coloured span.
- **Grid**: the table and the window's separate list of column names (`self.headers`).
  Covers the start state and the add/delete row and column handlers.
- **Project**: the project file `saveProject` writes and `loadProject` reads back.
- **Collapse** (`toggleCollapseRow`): collapses a row to one merged cell and restores it.
- **PyStr**, **PyReplace**, **Cells** and **Prelude**: the Python string operations the
  code relies on, a table position that may hold no item, and the `Option` and `Outcome`
  wrappers.

A handler's result is an `Outcome`:

- `Done(state)`: the handler finished.
- `Warning(message)`: it only showed a message box.
- `Crash(reason)`: it raised an exception nothing catches. PyQt5 then aborts the
  application.

User choices are parameters: a typed word, a picked colour, a selected row (negative when
none is selected), or `None` for a cancelled dialog. `htmlToPlainText` is the parameter
`toPlain`, because it hands the HTML to Qt's QTextDocument.

In OR mode, a condition that fails (`LitVis.py:631-641`) only sets the row hidden for the
moment, and the loop goes on. It stops at the first condition that holds. So in both modes
the answer does not depend on the order of the conditions (`Filter.OrderDoesNotMatter`).

## Model

| member | source | states |
|---|---|---|
| Matching.CheckCondition | LitVis.py:308-319 | For each of the four operators, the answer is exactly the operator's relation between the lowered value and the lowered cell text. Any other operator never matches. |
| Matching.CaseInsensitive | LitVis.py:309-310 | Lowering the cell text or the value beforehand never changes a match. |
| Matching.OperatorStrength | LitVis.py:311-318 | "equals" implies "starts with" and "ends with", and each of those implies "contains". |
| Matching.EmptyValue | LitVis.py:311-318 | An empty value is contained in, starts and ends every cell. It equals only an empty cell. |
| PyStr.Contains | LitVis.py:312 | `value in cellText` holds exactly when the value occurs at some position of the text. |
| PyStr.StartsWith | LitVis.py:314 | `startswith` holds exactly when the value is a prefix. |
| PyStr.EndsWith | LitVis.py:316 | `endswith` holds exactly when the value is a suffix. |
| PyStr.LowerIdempotent | LitVis.py:309-310 | Lowering twice is the same as lowering once. |
| PyStr.Strip | LitVis.py:279 | The result is a contiguous part of the input with only whitespace around it. It neither starts nor ends with whitespace. It is empty exactly when the input is all whitespace. |
| PyStr.NatToStringRoundTrip | LitVis.py:481 | The decimal text written for a number reads back as the same number. |
| PyReplace.Replace | LitVis.py:30 | A keyword that does not occur leaves the text unchanged. An empty keyword, which a loaded rules dict can hold, gives the characters joined by the replacement with one more copy at each end. |
| PyReplace.InsertAroundIsJoin | LitVis.py:30 | Python's insertion of the replacement before every character and at the end equals joining the characters, with an empty piece at each end, by the replacement. |
| PyReplace.ReplaceIsJoinOfSplit | LitVis.py:30 | `str.replace` equals cutting the text at every non-overlapping occurrence of the keyword and joining the pieces with the replacement. |
| PyReplace.SplitJoinRoundTrip | LitVis.py:30 | Joining the pieces with the keyword gives back the original text. |
| PyReplace.SplitHeadIsPrefix | LitVis.py:30 | The first piece is a prefix of the text. |
| PyReplace.SplitPiecesAvoidSeparator | LitVis.py:30 | No piece contains the keyword, so every occurrence is replaced. |
| PyReplace.SplitHeadThenSeparator | LitVis.py:30 | With more than one piece, the text starts with the first piece followed by the keyword. |
| PyReplace.SplitCutsLeftmost | LitVis.py:30 | No occurrence of the keyword starts inside a piece, even one running on into the next cut. So each cut is at the leftmost occurrence left, as Python scans. |
| Render.ApplyRulesConcat | LitVis.py:29-30 | The rules act one after the other, in dict order, each on the previous result. |
| Render.OneRuleHighlightsEveryOccurrence | LitVis.py:29-30 | One rule puts its span at every non-overlapping occurrence of its keyword, taken leftmost first, and the text between occurrences is kept. |
| Render.ApplyRules | LitVis.py:29-30 | When no keyword of the rules occurs in the text, and in particular when there are no rules, the substitution leaves the text unchanged. |
| Render.PaintText | LitVis.py:27-30 | A cell in which no keyword occurs is laid out exactly as it is stored. |
| Render.MissingItemPaintsAsEmpty | LitVis.py:27 | A position without an item is painted like one holding an empty item. |
| Cells.TextsOfItems | LitVis.py:812-814 | Filling positions with items and reading their texts gives the texts back. |
| Cells.ItemsOfTexts | LitVis.py:742-746 | Reading texts and refilling with items restores a row exactly when every position held an item. |
| Rules.Put | LitVis.py:201 | An existing key keeps its place and takes the new value. A new key goes at the end. No other key changes. |
| Rules.PutKeepsDict | LitVis.py:201 | Assigning a key keeps the keys distinct. |
| Rules.RemoveAt | LitVis.py:207-208 | The rule at the given position goes. The other keys keep their order and values. Keys stay distinct. |
| Rules.AddRule | LitVis.py:198-202 | A cancelled or empty word changes nothing. Otherwise the word maps to "blue", at its old place or at the end. Other rules are untouched. |
| Rules.RemoveRule | LitVis.py:204-209 | No selection changes nothing. Otherwise the selected rule goes and the others keep their order and colours. |
| Rules.ChangeRuleColor | LitVis.py:211-218 | An invalid colour or no selection changes nothing. Otherwise only the selected rule's colour changes, and it keeps its place. |
| Rules.ApplyEdit | LitVis.py:198-218 | Every button press keeps the keys distinct. |
| Rules.ApplyEdits | LitVis.py:198-218 | A whole dialog session keeps the keys distinct. |
| Rules.CloseDialogAsWritten | LitVis.py:602-606 | As written, a dialog session keeps the rules a dict whether it is accepted or not. |
| Rules.CancelKeepsEdits | LitVis.py:164 | As written, a rule added and then cancelled stays in place. |
| Rules.CloseDialog | LitVis.py:602-607 | As intended, Cancel restores the rules from before the dialog opened, and OK installs the session's edits. |
| Grid.SetHeaderLabels | LitVis.py:484 | With at least as many names as sections, the sections become items of the first names. With fewer names, the first sections take the names and the rest keep their labels. |
| Grid.InitialHeadersNotShown | LitVis.py:347 | As written, the table's start columns have no names, although the window's list holds "Title" and "Author". |
| Grid.Initial | LitVis.py:341-351 | As intended, the start columns are named "Title" and "Author" and agree with the window's list. |
| Grid.AddRow | LitVis.py:462-467 | A new last row holding an empty item in every column. Existing rows and names are kept. Agreement between the names and the list is kept. |
| Grid.DeleteRow | LitVis.py:469-475 | No selection only warns. Otherwise exactly the selected row goes and the other rows keep their order. The names, the window's list and the rules are untouched. |
| Grid.DefaultHeaderNumbersColumn | LitVis.py:480-481 | The default name is "Column " followed by the new column's 1-based number in decimal. |
| Grid.AddColumn | LitVis.py:477-487 | Every row gains an empty last cell. The list gains the typed name, or the default when the dialog was cancelled or left empty. The sections, one more than before, are relabelled from the whole list, whether or not it agreed with them. If names and list agreed, they still agree and the new name is last. |
| Grid.RemoveIndex | LitVis.py:493 | `removeColumn` drops exactly the given position and keeps the order of the rest. It ignores an index beyond the table. |
| Grid.DeleteColumnAsWritten | LitVis.py:489-496 | As written, the handler crashes exactly when the chosen index is beyond the window's list. A cancelled dialog changes nothing. Otherwise the column leaves every row and the list, and the sections are relabelled from the shortened list. |
| Grid.DeleteColumnOfEmptyTableCrashes | LitVis.py:490-494 | As written, accepting the dialog on a table with no columns and an empty window list crashes. |
| Grid.DeleteColumn | LitVis.py:489-496 | As intended, it never crashes and an index beyond the table changes nothing. Otherwise the chosen column leaves every row, the other cells keep their places, and the names drop that column. |
| Grid.DeleteColumnCellsAgree | LitVis.py:489-496 | Whenever the written handler does not crash, it leaves the same cells and rules as the intended one; only the names can differ. |
| Grid.DeleteColumnAgreesWhenSynced | LitVis.py:489-496 | When the names agree with the list, the intended and the written handler coincide. |
| Project.Save | LitVis.py:730-768 | The file holds one header per column, one row per table row with one text per column, and the rules. |
| Project.LoadAsWritten | LitVis.py:786-814 | As written, loading rebuilds the sections, cells and rules exactly as the intended load does, but leaves the window's list as it was. |
| Project.Load | LitVis.py:786-814 | As intended, after a load the table is well formed and the window's list matches the loaded names. |
| Project.LoadNormalises | LitVis.py:786-814 | The columns are the file's headers. There is one row per file row, cut or padded with "" to the header count. Every position holds an item. Missing rules become none. |
| Project.SaveLoadRoundTrip | LitVis.py:736-814 | Loading a saved table restores every header name, cell text and rule in place. |
| Project.SaveLoadIdentity | LitVis.py:736-814 | When the names agree and every position holds an item, save then load is the identity. |
| Project.StaleHeadersAfterLoad | LitVis.py:786-796 | As written, starting from the written start state and loading columns "A","B","C", adding "D" renames them "Title","Author","D" and leaves the new column unnamed. As intended they are "A","B","C","D". |
| Project.DeleteAfterLoadCrashes | LitVis.py:489-494 | As written, after loading three columns over the two-name start list, deleting column 2 crashes. |
| Filter.IndexOf | LitVis.py:628 | `list.index` returns the first position holding the name. |
| Filter.RowVisible | LitVis.py:622-642 | The inner loop with its early exits decides exactly the visibility rule. AND: every applicable condition holds. OR: some applicable condition holds, or none applies. |
| Filter.AdvancedFilter | LitVis.py:609-643 | A cancelled dialog changes nothing. Otherwise each row is hidden exactly when it is not visible under the header texts read from the table. |
| Filter.OrderDoesNotMatter | LitVis.py:623-641 | Condition lists with the same members give every row the same visibility, in either mode. |
| Filter.NothingAppliesShowsRow | LitVis.py:622-625 | With no condition naming a column, every row is shown. |
| Filter.AndImpliesOr | LitVis.py:631-641 | Once some condition applies, a row AND shows is also shown by OR. |
| Filter.MoreConditions | LitVis.py:631-641 | An extra condition never shows more rows under AND. Once some condition applies, it never hides a row under OR. |
| FilterDialog.AddCondition | LitVis.py:276-284 | A blank value adds nothing. Otherwise one condition is appended with the value stripped, and earlier ones are kept. The new value is always non-empty and trimmed, so a list of trimmed values stays trimmed. |
| FilterDialog.RemoveCondition | LitVis.py:286-290 | No selection changes nothing. Otherwise exactly the selected condition goes, the rest keep their order, and values stay trimmed. |
| FilterDialog.RemoveUndoesAdd | LitVis.py:276-290 | Removing the condition just added gives the previous list back. |
| Collapse.ToggleCollapseRowAsWritten | LitVis.py:645-666 | As written: no selection only warns. Collapsing records the height and every cell text, merges the row, sets height 20 and keeps the texts. Restoring puts back the recorded height and texts and forgets the record. Every other row keeps its cells but is resized to its contents, collapsed rows included. |
| Collapse.ToggleCollapseRow | LitVis.py:645-666 | As intended: the same toggle of the selected row, while every other row keeps its cells and its height. |
| Collapse.AsWrittenOnlyResizes | LitVis.py:365 | The written and the intended toggle agree on everything except the heights of the rows not toggled. |
| Collapse.CollapsingAnotherRowReexpands | LitVis.py:365 | As written, collapsing a second row draws the first collapsed row at its content height again, although it stays recorded as collapsed. |
| Collapse.ToggleKeepsCollapsedShut | LitVis.py:645-666 | As intended, every toggle keeps all collapsed rows at the collapsed height. |
| Collapse.CollapseThenRestore | LitVis.py:645-666 | As intended, collapse then toggle again restores the heights, the merges, the record map and every text. An empty position comes back as an empty item. |
| Collapse.CollapseThenRestoreIdentity | LitVis.py:645-666 | As intended, when every position of the row held an item, collapse then restore is the identity. |

## Left out

- Painting, layout, fonts, zoom, scrolling and `sizeHint` are widget rendering and are left out.
  The height Qt computes for a row's contents is the parameter `fit` of
  `Collapse.ToggleCollapseRowAsWritten`.
- Row heights outside `Collapse`: `Grid` holds no heights. So the model does not show that
  the explicit `resizeRowsToContents` calls in `addRow`, `deleteRow`, `addColumn` and
  `deleteColumn` (`LitVis.py:467`, 473, 487, 496) also re-expand collapsed rows.
- `htmlToPlainText` is the parameter `toPlain`, because it hands the HTML to Qt's
  QTextDocument.
- `Render.ApplyRules` models only the text substitution. The HTML layout of the span is left
  out.
- The rich-text editor (`RichEditDialog`, `BulletTextEdit`) and `edit_cell` are left out,
  because they edit HTML through Qt's text widgets.
- `renameColumn` is not modelled.
- CSV import and export, printing, autosave and the column visibility menu are file and
  printer I/O and are left out.
- Column widths and column order: `saveProject` writes them and `loadProject` restores them.
  They only move and size header sections.
- File reading and writing, the JSON encoding, and the error boxes for unreadable files are
  left out.
- `Project.Load`: file values are assumed to have the types the window writes (lists of
  strings, a string-to-string object). With a malformed file, for example a `rows` entry
  that is a number, `loadProject` has already replaced the rules (`LitVis.py:788`) and
  cleared the table (791-792) before lines 813-814 raise. The error box then leaves a
  half-built table. The model does not cover that path.
- `PyStr.Lower`: lowers only ASCII letters. Python's `str.lower` also lowers other Unicode
  letters.
- Sorting: the model keeps every row where it was written. In the program, sorting by
  column 0 in descending order is active from start-up: `LitVis.py:356` turns sorting on,
  and Qt's header starts with its sort indicator on section 0, descending. The sample rows
  are already in that order, so the start table is as modelled. After that, Qt moves a row
  to its sorted place whenever `setItem` writes the sort column. That happens in
  `loadProject` (813-814), `addRow` (466), `addColumn` on a table with no columns (486) and
  `toggleCollapseRow` (654, 665). Only `importCSV` turns sorting off around its own loop
  (579, 597). So:
  - `Grid.AddRow` and `Collapse.ToggleCollapseRowAsWritten` match the program only while
    each column-0 write leaves its row in place, as when the column-0 texts are distinct
    and in descending order. Two rows that both hold "" in column 0, the normal case for
    new rows, can break this: the later writes of `addRow` may then land on another row.
  - `Project.LoadAsWritten` and `Project.Load` match the program, while column 0 is the
    sort column, only when the file's column-0 texts are distinct and in descending order.
    Each row's later columns are written to the last row index after its column-0 write,
    and Qt puts a row among equal keys above them, so a repeated text sends the later
    cells into another row. `setColumnCount(0)` at 792 removes the sorted section. If Qt
    then drops its sort indicator, no column is sorted until a header is clicked. In that
    case load, and `addColumn` on a table with no columns, keep every row in place. The
    model does not decide which of the two cases Qt is in.
- After a row is deleted, `collapsedRows` keeps indices that no longer point at the same row.
  The model does not relate `Collapse` to `Grid.DeleteRow`.
- `collapsedRows` also survives `loadProject`, so its records can refer to rows of the
  previous table. The model does not relate `Collapse` to `Project.Load`.
- `Collapse.ToggleCollapseRow` and `Collapse.ToggleCollapseRowAsWritten`: require a table
  with at least one column when a row is selected, because Qt reports no current row in a
  table without columns.
- `htmlToPlainText` and `checkCondition` are each defined twice (`LitVis.py:863-883`). The
  second copies are identical and replace the first, so one model serves both.

## Findings

| source | as written | input that shows it | evidently intended | confidence | as-written member | corrected member |
|---|---|---|---|---|---|---|
| LitVis.py:341-351 | `__init__` sets `self.headers` but never copies it onto the table, so both columns start without a name | the start state: the filter dialog and a save see "" and "" | the start columns are named "Title" and "Author" | high, not executed | Grid.InitialHeadersNotShown | Grid.Initial |
| LitVis.py:786-796 | `loadProject` sets the table's sections from the file but never updates `self.headers`; the next `addColumn` copies the stale list over the loaded names | load a file with headers A, B, C, then add column D: the names become Title, Author, D and one unnamed column | the window's list becomes the loaded headers | high, not executed | Project.StaleHeadersAfterLoad | Project.Load |
| LitVis.py:489-494 | `deleteColumn` pops `self.headers[col]` after removing the column; on a table with no columns the dialog still returns 0, and when the window's list is empty too `pop(0)` raises IndexError, which aborts the application | a table with no columns and an empty list (both start columns deleted), dialog accepted | an index beyond the table deletes nothing | high, not executed | Grid.DeleteColumnOfEmptyTableCrashes | Grid.DeleteColumn |
| LitVis.py:164 | the conditional-formatting dialog edits the delegate's own dict, so pressing Cancel keeps the session's edits | no rules, add "x", press Cancel: rule "x" in blue remains | Cancel leaves the rules as they were | high, not executed | Rules.CancelKeepsEdits | Rules.CloseDialog |
| LitVis.py:365 | every `setItem` in `toggleCollapseRow` emits `cellChanged`, whose handler resizes every row to its contents, so an earlier collapsed row grows back while it stays in `collapsedRows` | collapse row 0, then collapse row 1: row 0 returns to its content height | a collapsed row stays at the collapsed height until it is restored | high, not executed | Collapse.CollapsingAnotherRowReexpands | Collapse.ToggleCollapseRow |

=== FILE: cells.dfy ===
/** One position of the table (a cell or a header section): either no QTableWidgetItem has
    been put there, or an item holding rich-text (HTML) text. Every place in LitVis that reads a
    position treats a missing item as the empty string. */
module Cells {

  datatype Cell = NoItem | Item(text: string)

  /** `item.text() if item else ""` */
  function Text(c: Cell): string {
    match c
    case NoItem => ""
    case Item(t) => t
  }

  /** The texts of a row (or of the header sections), position by position. */
  function Texts(row: seq<Cell>): (ts: seq<string>)
    ensures |ts| == |row|
  {
    seq(|row|, i requires 0 <= i < |row| => Text(row[i]))
  }

  /** A fresh item for every text, as `setItem(r, c, QTableWidgetItem(text))` creates. */
  function Items(texts: seq<string>): (row: seq<Cell>)
    ensures |row| == |texts|
  {
    seq(|texts|, i requires 0 <= i < |texts| => Item(texts[i]))
  }

  /** Every position holds an item. */
  predicate AllItems(row: seq<Cell>) {
    forall i | 0 <= i < |row| :: row[i].Item?
  }

  /** Making items from texts and reading the texts back gives the texts. */
  lemma TextsOfItems(texts: seq<string>)
    ensures Texts(Items(texts)) == texts
  {
  }

  /** Reading a row's texts and making fresh items from them gives the row back exactly when
      every position already held an item; otherwise missing items become empty items. */
  lemma ItemsOfTexts(row: seq<Cell>)
    ensures AllItems(Items(Texts(row)))
    ensures Items(Texts(row)) == row <==> AllItems(row)
  {
    if AllItems(row) {
      assert forall i | 0 <= i < |row| :: Items(Texts(row))[i] == row[i];
    }
  }
}

=== FILE: collapse.dfy ===
/** Collapsing a row: the row is drawn as one cell spanning all columns, showing the first
    column's text, at a fixed small height; the window remembers the row's height and cell
    texts so that a second toggle restores them.

    Every `setItem` makes the table emit `cellChanged`, which the window connects to
    `resizeRowsToContents`: each such write gives every row of the table the height its
    contents need, before the handler sets the toggled row's own height. */
module Collapse {
  import opened Prelude
  import opened Cells

  /** What collapsing records for a row: its height and the texts of all its cells. */
  datatype Record = Record(height: int, texts: seq<string>)

  /** The part of the window the toggle works on. */
  datatype View = View(
    columns: nat,                   // the table's columnCount
    cells: seq<seq<Cell>>,
    heights: seq<int>,              // the height of every row
    merged: set<int>,               // rows drawn as one cell spanning every column
    collapsed: map<int, Record>)    // the window's `collapsedRows`

  /** Every row has one cell per column and a height; a record holds at least one text, as a
      row of a table with columns does. */
  predicate WellFormed(v: View) {
    && |v.heights| == |v.cells|
    && (forall r | 0 <= r < |v.cells| :: |v.cells[r]| == v.columns)
    && (forall r | r in v.collapsed :: |v.collapsed[r].texts| > 0)
  }

  /** The height a collapsed row is given. */
  const CollapsedHeight := 20

  /** Qt's layout of one row: the height `resizeRowsToContents` gives a row with these cell
      texts, drawn as one merged cell or not. It stands for the text layout, the column
      widths and the font, none of which the model holds. */
  type Fit = (seq<string>, bool) -> int

  /** `resizeRowsToContents`: every row takes the height of its contents. */
  function ResizeAll(cells: seq<seq<Cell>>, merged: set<int>, fit: Fit): seq<int> {
    seq(|cells|, i requires 0 <= i < |cells| => fit(Texts(cells[i]), i in merged))
  }

  /** Every collapsed row that is in the table is drawn at the collapsed height. */
  predicate CollapsedShut(v: View) {
    forall r | r in v.collapsed && 0 <= r < |v.heights| :: v.heights[r] == CollapsedHeight
  }

  /** Put a fresh item with each recorded text back into the row; recorded texts beyond the
      row's columns are dropped (Qt ignores `setItem` outside the table), columns beyond the
      record keep their cells. */
  function Restore(row: seq<Cell>, texts: seq<string>): (r: seq<Cell>)
    ensures |r| == |row|
    ensures forall c | 0 <= c < |row| && c < |texts| :: r[c] == Item(texts[c])
    ensures forall c | |texts| <= c < |row| :: r[c] == row[c]
  {
    seq(|row|, c requires 0 <= c < |row| => if c < |texts| then Item(texts[c]) else row[c])
  }

  /** The cells, drawing and record map after a toggle of `row`, before any height is set:
      a collapsed row gets its texts back, is drawn per column again and leaves the map; any
      other row is recorded, merged, and given a fresh item with its own first text in
      column 0. */
  function Toggled(v: View, row: nat): (w: View)
    requires WellFormed(v) && row < |v.cells| && v.columns > 0
    ensures |w.cells| == |v.cells|
    ensures row !in v.collapsed ==> Texts(w.cells[row]) == Texts(v.cells[row])
  {
    if row in v.collapsed then
      var rec := v.collapsed[row];
      v.(cells := v.cells[row := Restore(v.cells[row], rec.texts)],
         merged := v.merged - {row}, collapsed := v.collapsed - {row})
    else
      var texts := Texts(v.cells[row]);
      assert Texts(v.cells[row][0 := Item(texts[0])]) == texts;
      v.(cells := v.cells[row := v.cells[row][0 := Item(texts[0])]],
         merged := v.merged + {row}, collapsed := v.collapsed[row := Record(v.heights[row], texts)])
  }

  /** The height the toggled row is given last: the recorded height on restore, the collapsed
      height on collapse. */
  function ToggledHeight(v: View, row: nat): int
    requires row < |v.heights|
  {
    if row in v.collapsed then v.collapsed[row].height else CollapsedHeight
  }

  /** `toggleCollapseRow` as written: `row` is the table's current row, negative when none is
      selected (the handler only warns); Qt has no current row in a table without columns.
      The `setItem` calls resize every row to its contents, collapsed rows included; then the
      toggled row takes its height. */
  function ToggleCollapseRowAsWritten(v: View, row: int, fit: Fit): (o: Outcome<View>)
    requires WellFormed(v) && row < |v.cells|
    requires row >= 0 ==> v.columns > 0
    ensures row < 0 <==> o.Warning?
    ensures !o.Crash?
    ensures o.Done? ==>
      var w := o.value;
      && WellFormed(w) && w.columns == v.columns && |w.cells| == |v.cells|
      && (forall i | 0 <= i < |v.cells| && i != row ::
            w.cells[i] == v.cells[i] && w.heights[i] == fit(Texts(v.cells[i]), i in v.merged))
      && (forall i | i != row :: i in w.merged <==> i in v.merged)
      && (forall i | i != row :: i in w.collapsed <==> i in v.collapsed)
      && (forall i | i != row && i in v.collapsed :: w.collapsed[i] == v.collapsed[i])
    ensures o.Done? && row !in v.collapsed ==>
      var w := o.value;
      && row in w.collapsed && w.collapsed[row] == Record(v.heights[row], Texts(v.cells[row]))
      && row in w.merged && w.heights[row] == CollapsedHeight
      && Texts(w.cells[row]) == Texts(v.cells[row])
    ensures o.Done? && row in v.collapsed ==>
      var w := o.value;
      && row !in w.collapsed && row !in w.merged
      && w.heights[row] == v.collapsed[row].height
      && w.cells[row] == Restore(v.cells[row], v.collapsed[row].texts)
  {
    if row < 0 then Warning("Please select a row!")
    else
      var w := Toggled(v, row);
      Done(w.(heights := ResizeAll(w.cells, w.merged, fit)[row := ToggledHeight(v, row)]))
  }

  /** `toggleCollapseRow` as intended: the row heights other than the toggled row's are left
      alone (as when the table's signals are blocked during the toggle). */
  function ToggleCollapseRow(v: View, row: int): (o: Outcome<View>)
    requires WellFormed(v) && row < |v.cells|
    requires row >= 0 ==> v.columns > 0
    ensures row < 0 <==> o.Warning?
    ensures !o.Crash?
    ensures o.Done? ==>
      var w := o.value;
      && WellFormed(w) && w.columns == v.columns && |w.cells| == |v.cells|
      && (forall i | 0 <= i < |v.cells| && i != row :: w.cells[i] == v.cells[i] && w.heights[i] == v.heights[i])
      && (forall i | i != row :: i in w.merged <==> i in v.merged)
      && (forall i | i != row :: i in w.collapsed <==> i in v.collapsed)
      && (forall i | i != row && i in v.collapsed :: w.collapsed[i] == v.collapsed[i])
    ensures o.Done? && row !in v.collapsed ==>
      var w := o.value;
      && row in w.collapsed && w.collapsed[row] == Record(v.heights[row], Texts(v.cells[row]))
      && row in w.merged && w.heights[row] == CollapsedHeight
      && Texts(w.cells[row]) == Texts(v.cells[row])
    ensures o.Done? && row in v.collapsed ==>
      var w := o.value;
      && row !in w.collapsed && row !in w.merged
      && w.heights[row] == v.collapsed[row].height
      && w.cells[row] == Restore(v.cells[row], v.collapsed[row].texts)
  {
    if row < 0 then Warning("Please select a row!")
    else
      var w := Toggled(v, row);
      Done(w.(heights := v.heights[row := ToggledHeight(v, row)]))
  }

  /** The written handler does everything the intended one does; the two differ only in the
      heights of the rows that were not toggled. */
  lemma AsWrittenOnlyResizes(v: View, row: int, fit: Fit)
    requires WellFormed(v) && row < |v.cells|
    requires row >= 0 ==> v.columns > 0
    ensures var a, b := ToggleCollapseRowAsWritten(v, row, fit), ToggleCollapseRow(v, row);
      && (a.Done? <==> b.Done?)
      && (a.Done? ==> a.value.(heights := b.value.heights) == b.value && a.value.heights[row] == b.value.heights[row])
  {
  }

  /** As written, collapsing a second row re-expands the first: after rows 0 and 1 of a
      one-column table are collapsed in turn, row 0 is still recorded as collapsed but is
      drawn at its content height again. */
  lemma CollapsingAnotherRowReexpands()
    ensures var fit: Fit := (texts, merged) => 30;
      var v := View(1, [[Item("a")], [Item("b")]], [30, 30], {}, map[]);
      var once := ToggleCollapseRowAsWritten(v, 0, fit);
      && once.Done? && CollapsedShut(once.value)
      && var twice := ToggleCollapseRowAsWritten(once.value, 1, fit);
      && twice.Done? && 0 in twice.value.collapsed && twice.value.heights[0] == 30
      && !CollapsedShut(twice.value)
  {
    var fit: Fit := (texts, merged) => 30;
    var v := View(1, [[Item("a")], [Item("b")]], [30, 30], {}, map[]);
    var once := ToggleCollapseRowAsWritten(v, 0, fit).value;
    assert once.heights == [CollapsedHeight, 30];
    assert once.collapsed.Keys == {0};
    var twice := ToggleCollapseRowAsWritten(once, 1, fit).value;
    assert twice.heights[0] == 30;
  }

  /** As intended, a toggle keeps every collapsed row drawn at the collapsed height. */
  lemma ToggleKeepsCollapsedShut(v: View, row: int)
    requires WellFormed(v) && row < |v.cells|
    requires row >= 0 ==> v.columns > 0
    requires CollapsedShut(v)
    ensures ToggleCollapseRow(v, row).Done? ==> CollapsedShut(ToggleCollapseRow(v, row).value)
  {
    var o := ToggleCollapseRow(v, row);
    if o.Done? {
      var w := o.value;
      forall r | r in w.collapsed && 0 <= r < |w.heights|
        ensures w.heights[r] == CollapsedHeight
      {
        if r != row {
          assert r in v.collapsed;
        }
      }
    }
  }

  /** As intended, collapsing a row and toggling it again, with nothing in between, restores
      every cell text, every height, the drawing and the map; the only trace is that a
      position which had no item now holds an empty one. */
  lemma CollapseThenRestore(v: View, row: int)
    requires WellFormed(v) && 0 <= row < |v.cells| && v.columns > 0
    requires row !in v.collapsed && row !in v.merged
    ensures var once := ToggleCollapseRow(v, row);
      && once.Done?
      && ToggleCollapseRow(once.value, row) == Done(v.(cells := v.cells[row := Items(Texts(v.cells[row]))]))
  {
    var w := ToggleCollapseRow(v, row).value;
    var u := ToggleCollapseRow(w, row).value;
    var texts := Texts(v.cells[row]);
    assert w.collapsed[row].texts == texts;
    assert Restore(w.cells[row], texts) == Items(texts);
    assert u.cells == v.cells[row := Items(texts)];
    assert u.heights == v.heights;
    assert u.merged == v.merged;
    assert u.collapsed == v.collapsed;
  }

  /** As intended, when every position of the row held an item, collapse then restore is the
      identity. */
  lemma CollapseThenRestoreIdentity(v: View, row: int)
    requires WellFormed(v) && 0 <= row < |v.cells| && v.columns > 0
    requires row !in v.collapsed && row !in v.merged
    requires AllItems(v.cells[row])
    ensures var once := ToggleCollapseRow(v, row);
      once.Done? && ToggleCollapseRow(once.value, row) == Done(v)
  {
    CollapseThenRestore(v, row);
    ItemsOfTexts(v.cells[row]);
    assert v.cells[row := v.cells[row]] == v.cells;
  }
}

=== FILE: filter.dfy ===
/** The advanced filter: once the filter dialog is accepted, every row of the table is
    shown or hidden according to the conditions and the AND/OR choice. Only the hidden flags
    change; the rows and their cells stay as they are. */
module Filter {
  import opened Prelude
  import opened Cells
  import opened Matching
  import opened Grid

  /** One condition: the name of a column, an operator name and the value to look for. */
  datatype Condition = Condition(column: string, operator: string, value: string)

  /** What the filter dialog returns: the combine choice and the conditions in order. */
  datatype FilterRequest = FilterRequest(combine: string, conditions: seq<Condition>)

  /** The combine choice that requires every condition; every other choice acts as OR. */
  const All := "AND"

  /** `headers.index(name)`: the first position holding `name`. */
  function IndexOf(headers: seq<string>, name: string): (i: nat)
    requires name in headers
    ensures i < |headers| && headers[i] == name
    ensures forall j | 0 <= j < i :: headers[j] != name
    decreases |headers|
  {
    if headers[0] == name then 0 else 1 + IndexOf(headers[1..], name)
  }

  /** A condition takes part only when its column name is one of the headers. */
  predicate Applies(headers: seq<string>, c: Condition) {
    c.column in headers
  }

  /** A condition holds on a row when `checkCondition` accepts the plain text of the row's cell
      in the first column with that name. `toPlain` stands for `htmlToPlainText`, which lets
      QTextDocument parse the cell's HTML. */
  predicate Holds(headers: seq<string>, row: seq<Cell>, c: Condition, toPlain: string -> string)
    requires |row| == |headers| && Applies(headers, c)
  {
    CheckCondition(toPlain(Text(row[IndexOf(headers, c.column)])), c.operator, c.value)
  }

  /** Whether a row is shown. AND: every condition that takes part holds. OR: some condition
      that takes part holds, or none takes part. */
  ghost predicate Visible(headers: seq<string>, row: seq<Cell>, conds: seq<Condition>, combine: string,
                          toPlain: string -> string)
    requires |row| == |headers|
  {
    if combine == All then
      forall i | 0 <= i < |conds| && Applies(headers, conds[i]) :: Holds(headers, row, conds[i], toPlain)
    else
      || (forall i | 0 <= i < |conds| :: !Applies(headers, conds[i]))
      || exists i | 0 <= i < |conds| && Applies(headers, conds[i]) :: Holds(headers, row, conds[i], toPlain)
  }

  /** The inner loop of `advancedFilter` for one row: start visible; in AND mode the first
      condition that fails hides the row and stops the scan; in OR mode the first condition
      that holds shows the row and stops the scan, and each one that fails hides it for now. */
  method RowVisible(headers: seq<string>, row: seq<Cell>, conds: seq<Condition>, combine: string,
                    toPlain: string -> string) returns (visible: bool)
    requires |row| == |headers|
    ensures visible == Visible(headers, row, conds, combine, toPlain)
  {
    visible := true;
    var i := 0;
    while i < |conds|
      invariant 0 <= i <= |conds|
      invariant combine == All ==> visible
      invariant combine == All ==>
        forall j | 0 <= j < i && Applies(headers, conds[j]) :: Holds(headers, row, conds[j], toPlain)
      invariant combine != All ==> (visible <==> forall j | 0 <= j < i :: !Applies(headers, conds[j]))
      invariant combine != All ==>
        forall j | 0 <= j < i && Applies(headers, conds[j]) :: !Holds(headers, row, conds[j], toPlain)
    {
      var c := conds[i];
      if c.column in headers {
        var col := IndexOf(headers, c.column);
        var plain := toPlain(Text(row[col]));
        var condResult := CheckCondition(plain, c.operator, c.value);
        if combine == All {
          if !condResult {
            visible := false;
            break;
          }
        } else {
          if condResult {
            visible := true;
            break;
          } else {
            visible := false;
          }
        }
      }
      i := i + 1;
    }
  }

  /** `advancedFilter`: `request` is what the dialog returned (None when it was cancelled, in
      which case nothing changes). The header names are the texts of the table's header
      sections. Every row's hidden flag is set to the negation of its visibility. */
  method AdvancedFilter(s: Sheet, hidden: seq<bool>, request: Option<FilterRequest>, toPlain: string -> string)
    returns (result: seq<bool>)
    requires WellFormed(s) && |hidden| == |s.cells|
    ensures |result| == |s.cells|
    ensures request.None? ==> result == hidden
    ensures request.Some? ==> forall r | 0 <= r < |s.cells| ::
      result[r] == !Visible(Texts(s.labels), s.cells[r], request.value.conditions, request.value.combine, toPlain)
  {
    if request.None? {
      return hidden;
    }
    var headers := Texts(s.labels);
    var conds := request.value.conditions;
    var combine := request.value.combine;
    result := [];
    var r := 0;
    while r < |s.cells|
      invariant 0 <= r <= |s.cells| && |result| == r
      invariant forall k | 0 <= k < r :: result[k] == !Visible(headers, s.cells[k], conds, combine, toPlain)
    {
      var visible := RowVisible(headers, s.cells[r], conds, combine, toPlain);
      result := result + [!visible];
      r := r + 1;
    }
  }

  /** The order of the conditions, and repeats among them, do not matter in either mode: OR
      mode does not stop at a failing condition, so only the set of conditions counts. */
  lemma OrderDoesNotMatter(headers: seq<string>, row: seq<Cell>, conds1: seq<Condition>, conds2: seq<Condition>,
                           combine: string, toPlain: string -> string)
    requires |row| == |headers|
    requires forall i | 0 <= i < |conds1| :: conds1[i] in conds2
    requires forall j | 0 <= j < |conds2| :: conds2[j] in conds1
    ensures Visible(headers, row, conds1, combine, toPlain) == Visible(headers, row, conds2, combine, toPlain)
  {
    forall a: seq<Condition>, b: seq<Condition> |
      (forall i | 0 <= i < |a| :: a[i] in b) && (forall j | 0 <= j < |b| :: b[j] in a)
      ensures Visible(headers, row, a, combine, toPlain) ==> Visible(headers, row, b, combine, toPlain)
    {
      if combine == All && Visible(headers, row, a, combine, toPlain) {
        forall j | 0 <= j < |b| && Applies(headers, b[j])
          ensures Holds(headers, row, b[j], toPlain)
        {
          assert b[j] in a;
          var i :| 0 <= i < |a| && a[i] == b[j];
        }
      }
      if combine != All && Visible(headers, row, a, combine, toPlain) {
        if exists i | 0 <= i < |a| && Applies(headers, a[i]) :: Holds(headers, row, a[i], toPlain) {
          var i :| 0 <= i < |a| && Applies(headers, a[i]) && Holds(headers, row, a[i], toPlain);
          assert a[i] in b;
          var j :| 0 <= j < |b| && b[j] == a[i];
          assert Applies(headers, b[j]) && Holds(headers, row, b[j], toPlain);
        } else {
          forall j | 0 <= j < |b|
            ensures !Applies(headers, b[j])
          {
            assert b[j] in a;
            var i :| 0 <= i < |a| && a[i] == b[j];
          }
        }
      }
    }
  }

  /** When no condition names a column of the table (in particular when there are no
      conditions) every row is shown, in either mode. */
  lemma NothingAppliesShowsRow(headers: seq<string>, row: seq<Cell>, conds: seq<Condition>, combine: string,
                               toPlain: string -> string)
    requires |row| == |headers|
    requires forall i | 0 <= i < |conds| :: !Applies(headers, conds[i])
    ensures Visible(headers, row, conds, combine, toPlain)
  {
  }

  /** With at least one condition that takes part, a row AND shows is also shown by OR. */
  lemma AndImpliesOr(headers: seq<string>, row: seq<Cell>, conds: seq<Condition>, toPlain: string -> string)
    requires |row| == |headers|
    requires exists i | 0 <= i < |conds| :: Applies(headers, conds[i])
    ensures Visible(headers, row, conds, All, toPlain) ==> Visible(headers, row, conds, "OR", toPlain)
  {
    var i :| 0 <= i < |conds| && Applies(headers, conds[i]);
    assert Visible(headers, row, conds, All, toPlain) ==> Holds(headers, row, conds[i], toPlain);
  }

  /** Adding a condition can only hide more rows in AND mode, and only show more rows in OR
      mode once some condition takes part. */
  lemma MoreConditions(headers: seq<string>, row: seq<Cell>, conds: seq<Condition>, c: Condition,
                       toPlain: string -> string)
    requires |row| == |headers|
    ensures Visible(headers, row, conds + [c], All, toPlain) ==> Visible(headers, row, conds, All, toPlain)
    ensures (exists i | 0 <= i < |conds| :: Applies(headers, conds[i])) && Visible(headers, row, conds, "OR", toPlain)
      ==> Visible(headers, row, conds + [c], "OR", toPlain)
  {
    var more := conds + [c];
    assert forall i | 0 <= i < |conds| :: more[i] == conds[i];
    if (exists i | 0 <= i < |conds| :: Applies(headers, conds[i])) && Visible(headers, row, conds, "OR", toPlain) {
      var i :| 0 <= i < |conds| && Applies(headers, conds[i]) && Holds(headers, row, conds[i], toPlain);
      assert Applies(headers, more[i]) && Holds(headers, row, more[i], toPlain);
    }
  }
}

=== FILE: filter_dialog.dfy ===
/** The condition list of the advanced-filter dialog: "Add Condition" appends the chosen
    column, operator and the typed value (trimmed), "Remove Selected Condition" drops the
    selected entry. */
module FilterDialog {
  import opened PyStr
  import opened Filter

  /** A value that is non-empty and carries no surrounding whitespace. */
  predicate TrimmedValue(v: string) {
    v != [] && !IsSpace(v[0]) && !IsSpace(v[|v| - 1])
  }

  /** Every value in the list is trimmed. */
  predicate Trimmed(conds: seq<Condition>) {
    forall i | 0 <= i < |conds| :: TrimmedValue(conds[i].value)
  }

  /** `addCondition`: the value field is stripped; a value that is empty after stripping adds
      nothing, any other value is appended as a new last condition. */
  function AddCondition(conds: seq<Condition>, column: string, operator: string, typed: string): (r: seq<Condition>)
    ensures Trimmed(conds) ==> Trimmed(r)
    ensures AllSpace(typed) ==> r == conds
    ensures !AllSpace(typed) ==>
      && |r| == |conds| + 1 && r[..|conds|] == conds
      && r[|conds|].column == column && r[|conds|].operator == operator
      && IsStripOf(r[|conds|].value, typed) && TrimmedValue(r[|conds|].value)
  {
    var value := Strip(typed);
    if value != [] then
      assert TrimmedValue(value);
      conds + [Condition(column, operator, value)]
    else conds
  }

  /** `removeCondition`: `row` is the selected list row, negative when none is selected. The
      selected condition goes; the others keep their order. */
  function RemoveCondition(conds: seq<Condition>, row: int): (r: seq<Condition>)
    requires row < |conds|
    ensures row < 0 ==> r == conds
    ensures row >= 0 ==>
      && |r| == |conds| - 1
      && (forall i | 0 <= i < row :: r[i] == conds[i])
      && (forall i | row <= i < |r| :: r[i] == conds[i + 1])
      && multiset(r) + multiset{conds[row]} == multiset(conds)
    ensures Trimmed(conds) ==> Trimmed(r)
  {
    if row >= 0 then
      assert conds == conds[..row] + [conds[row]] + conds[row + 1..];
      conds[..row] + conds[row + 1..]
    else conds
  }

  /** Removing the condition just added gives the list back: the two buttons undo each other. */
  lemma RemoveUndoesAdd(conds: seq<Condition>, column: string, operator: string, typed: string)
    requires !AllSpace(typed)
    ensures RemoveCondition(AddCondition(conds, column, operator, typed), |conds|) == conds
  {
  }
}

=== FILE: grid.dfy ===
/** The main window's table and the handlers that reshape it: add or delete a row, add or
    delete a column. The window keeps the column names twice: in its own Python list
    `self.headers`, and in the table's header sections, which are what every reader of the
    table (filter, save, export) sees. The two are only tied together when a handler copies
    the list onto the sections with `setHorizontalHeaderLabels`. */
module Grid {
  import opened Prelude
  import opened PyStr
  import opened Cells
  import opened Rules

  datatype Sheet = Sheet(
    headerList: seq<string>,     // the window's `self.headers`
    labels: seq<Cell>,           // the table's header sections; their number is columnCount
    cells: seq<seq<Cell>>,       // rowCount rows of cells
    rules: RuleSet)              // the delegate's conditional-formatting rules

  /** Every row has one cell per column. */
  predicate WellFormed(s: Sheet) {
    forall r | 0 <= r < |s.cells| :: |s.cells[r]| == |s.labels|
  }

  /** The header sections show exactly the window's header list. */
  predicate Synced(s: Sheet) {
    |s.headerList| == |s.labels| && forall i | 0 <= i < |s.labels| :: s.labels[i] == Item(s.headerList[i])
  }

  /** Qt's `setHorizontalHeaderLabels(names)`: the first sections take the names; sections
      beyond the list keep what they had; names beyond the sections are dropped. */
  function SetHeaderLabels(labels: seq<Cell>, names: seq<string>): (r: seq<Cell>)
    ensures |r| == |labels|
    ensures |names| >= |labels| ==> r == Items(names[..|labels|])
    ensures |names| < |labels| ==> r == Items(names) + labels[|names|..]
  {
    var r := seq(|labels|, i requires 0 <= i < |labels| => if i < |names| then Item(names[i]) else labels[i]);
    assert |names| < |labels| ==> r == Items(names) + labels[|names|..];
    r
  }

  /** The two-row, two-column sample table the window starts with. */
  function SampleCells(): seq<seq<Cell>> {
    [[Item("Sample <b>Title</b>"), Item("Sample <i>Author</i>")],
     [Item("Another <font color='red'>Title</font>"), Item("Another <u>Author</u>")]]
  }

  /** The window's start state as written: `self.headers` is set, but the header list is
      never copied onto the table, whose two sections carry no item. */
  function InitialAsWritten(): (s: Sheet)
    ensures WellFormed(s)
  {
    Sheet(["Title", "Author"], [NoItem, NoItem], SampleCells(), [])
  }

  /** As written, the table's columns start without names, although the window's list says
      "Title" and "Author"; readers of the table see two empty names. */
  lemma InitialHeadersNotShown()
    ensures !Synced(InitialAsWritten())
    ensures Texts(InitialAsWritten().labels) == ["", ""]
    ensures InitialAsWritten().headerList == ["Title", "Author"]
  {
    assert InitialAsWritten().labels[0] != Item(InitialAsWritten().headerList[0]);
  }

  /** The start state as intended: the sections show the window's header list. */
  function Initial(): (s: Sheet)
    ensures WellFormed(s) && Synced(s)
    ensures Texts(s.labels) == ["Title", "Author"]
  {
    var headers := ["Title", "Author"];
    Sheet(headers, SetHeaderLabels([NoItem, NoItem], headers), SampleCells(), [])
  }

  /** `addRow`: a new last row with an empty item in every column. */
  function AddRow(s: Sheet): (r: Sheet)
    requires WellFormed(s)
    ensures WellFormed(r) && (Synced(s) ==> Synced(r))
    ensures |r.cells| == |s.cells| + 1 && r.cells[..|s.cells|] == s.cells
    ensures Texts(r.cells[|s.cells|]) == seq(|s.labels|, _ => "") && AllItems(r.cells[|s.cells|])
    ensures r.labels == s.labels && r.headerList == s.headerList && r.rules == s.rules
  {
    s.(cells := s.cells + [seq(|s.labels|, _ => Item(""))])
  }

  /** `deleteRow`: `row` is the table's current row, negative when none is selected, in
      which case the handler only warns. */
  function DeleteRow(s: Sheet, row: int): (o: Outcome<Sheet>)
    requires WellFormed(s) && row < |s.cells|
    ensures row < 0 <==> o.Warning?
    ensures o.Done? ==>
      && WellFormed(o.value) && (Synced(s) ==> Synced(o.value))
      && |o.value.cells| == |s.cells| - 1
      && (forall i | 0 <= i < row :: o.value.cells[i] == s.cells[i])
      && (forall i | row <= i < |o.value.cells| :: o.value.cells[i] == s.cells[i + 1])
      && o.value.labels == s.labels && o.value.headerList == s.headerList
      && o.value.rules == s.rules
    ensures !o.Crash?
  {
    if row < 0 then Warning("No row selected!")
    else Done(s.(cells := s.cells[..row] + s.cells[row + 1..]))
  }

  /** The name `addColumn` gives a column when the input dialog is cancelled or left empty:
      `f"Column {colCount + 1}"`. */
  function DefaultHeader(columnCount: nat): string {
    "Column " + NatToString(columnCount + 1)
  }

  /** The default name ends with the one-based number of the new column, written in decimal. */
  lemma DefaultHeaderNumbersColumn(columnCount: nat)
    ensures var h := DefaultHeader(columnCount);
      && h[..7] == "Column "
      && (forall i | 7 <= i < |h| :: IsDigit(h[i]))
      && DigitsValue(h[7..]) == columnCount + 1
  {
    var h := DefaultHeader(columnCount);
    assert h[7..] == NatToString(columnCount + 1);
    NatToStringRoundTrip(columnCount + 1);
  }

  /** `addColumn`: `input` is what the input dialog returned (None when cancelled). The table
      gains a last column with an empty item in every row; the name is appended to the
      window's list, and the whole list is copied onto the sections. */
  function AddColumn(s: Sheet, input: Option<string>): (r: Sheet)
    requires WellFormed(s)
    ensures WellFormed(r)
    ensures |r.labels| == |s.labels| + 1 && |r.cells| == |s.cells|
    ensures forall i | 0 <= i < |s.cells| :: r.cells[i] == s.cells[i] + [Item("")]
    ensures r.headerList == s.headerList + [if input.None? || input.value == "" then DefaultHeader(|s.labels|) else input.value]
    ensures r.labels == SetHeaderLabels(s.labels + [NoItem], r.headerList)
    ensures Synced(s) ==> Synced(r) && r.labels == s.labels + [Item(r.headerList[|s.labels|])]
    ensures r.rules == s.rules
  {
    var colCount := |s.labels|;
    var name := if input.None? || input.value == "" then DefaultHeader(colCount) else input.value;
    var headerList := s.headerList + [name];
    var labels := SetHeaderLabels(s.labels + [NoItem], headerList);
    var cells := seq(|s.cells|, i requires 0 <= i < |s.cells| => s.cells[i] + [Item("")]);
    Sheet(headerList, labels, cells, s.rules)
  }

  /** Remove position `i` of a sequence when there is one; Qt's `removeColumn` ignores an
      index beyond the table. */
  function RemoveIndex<T>(xs: seq<T>, i: nat): (r: seq<T>)
    ensures i < |xs| ==> |r| == |xs| - 1
    ensures i < |xs| ==> forall j | 0 <= j < i :: r[j] == xs[j]
    ensures i < |xs| ==> forall j | i <= j < |r| :: r[j] == xs[j + 1]
    ensures i >= |xs| ==> r == xs
  {
    if i < |xs| then xs[..i] + xs[i + 1..] else xs
  }

  /** What `QInputDialog.getInt(..., 0, 0, columnCount - 1)` can return when accepted: a
      column index, or 0 when the table has no column (a spin box whose maximum is below its
      minimum only admits the minimum). */
  predicate ColumnChoice(s: Sheet, col: int) {
    0 <= col && (col < |s.labels| || col == 0)
  }

  /** Every row without its cell at `col`. */
  function DropColumn(cells: seq<seq<Cell>>, col: nat): (r: seq<seq<Cell>>)
    ensures |r| == |cells|
    ensures forall i | 0 <= i < |cells| :: r[i] == RemoveIndex(cells[i], col)
  {
    seq(|cells|, i requires 0 <= i < |cells| => RemoveIndex(cells[i], col))
  }

  /** `deleteColumn` as written: remove the column from the table, then `self.headers.pop(col)`,
      which raises IndexError when the window's list has no such position, then copy the list
      onto the sections. */
  function DeleteColumnAsWritten(s: Sheet, input: Option<int>): (o: Outcome<Sheet>)
    requires WellFormed(s) && (input.Some? ==> ColumnChoice(s, input.value))
    ensures !o.Warning?
    ensures o.Crash? <==> input.Some? && input.value >= |s.headerList|
    ensures input.None? ==> o == Done(s)
    ensures o.Done? && input.Some? ==>
      var col, r := input.value, o.value;
      && r.cells == DropColumn(s.cells, col)
      && r.headerList == RemoveIndex(s.headerList, col)
      && r.labels == SetHeaderLabels(RemoveIndex(s.labels, col), r.headerList)
      && r.rules == s.rules
  {
    match input
    case None => Done(s)
    case Some(col) =>
      var labels := RemoveIndex(s.labels, col);
      if |s.headerList| == 0 then Crash("IndexError: pop from empty list")
      else if col >= |s.headerList| then Crash("IndexError: pop index out of range")
      else
        var headerList := RemoveIndex(s.headerList, col);
        Done(Sheet(headerList, SetHeaderLabels(labels, headerList), DropColumn(s.cells, col), s.rules))
  }

  /** Accepting the dialog on a table with no columns (the window's list empty, as the two
      agree) crashes the application. */
  lemma DeleteColumnOfEmptyTableCrashes(rows: seq<seq<Cell>>, rules: RuleSet)
    requires forall r | 0 <= r < |rows| :: rows[r] == []
    ensures DeleteColumnAsWritten(Sheet([], [], rows, rules), Some(0)).Crash?
  {
  }

  /** Removing the same position from the names and from synced sections keeps them synced. */
  lemma RemoveKeepsSynced(s: Sheet, col: nat)
    requires Synced(s) && col < |s.labels|
    ensures var headerList := RemoveIndex(s.headerList, col);
      && SetHeaderLabels(RemoveIndex(s.labels, col), headerList) == s.labels[..col] + s.labels[col + 1..]
      && Synced(Sheet(headerList, s.labels[..col] + s.labels[col + 1..], s.cells, s.rules))
  {
  }

  /** `deleteColumn` as intended: an index beyond the table deletes nothing. The column at
      `col` leaves the table, every row and the window's list; all other cells, names and
      rules keep their values and order. */
  function DeleteColumn(s: Sheet, input: Option<int>): (o: Outcome<Sheet>)
    requires WellFormed(s) && (input.Some? ==> ColumnChoice(s, input.value))
    ensures o.Done?
    ensures input.None? || input.value >= |s.labels| ==> o.value == s
    ensures input.Some? && input.value < |s.labels| ==>
      var col, r := input.value, o.value;
      && WellFormed(r)
      && |r.labels| == |s.labels| - 1 && |r.cells| == |s.cells|
      && (forall i | 0 <= i < |s.cells| :: r.cells[i] == s.cells[i][..col] + s.cells[i][col + 1..])
      && (Synced(s) ==> Synced(r) && r.labels == s.labels[..col] + s.labels[col + 1..])
      && r.rules == s.rules
  {
    match input
    case None => Done(s)
    case Some(col) =>
      if col >= |s.labels| then Done(s)
      else
        var headerList := RemoveIndex(s.headerList, col);
        var r := Sheet(headerList, SetHeaderLabels(RemoveIndex(s.labels, col), headerList),
                       DropColumn(s.cells, col), s.rules);
        if Synced(s) then
          RemoveKeepsSynced(s, col);
          Done(r)
        else Done(r)
  }

  /** Whenever the written handler does not crash, it leaves the same cells and rules as the
      intended one; only the names can differ. */
  lemma DeleteColumnCellsAgree(s: Sheet, input: Option<int>)
    requires WellFormed(s) && (input.Some? ==> ColumnChoice(s, input.value))
    ensures DeleteColumnAsWritten(s, input).Done? ==>
      && DeleteColumnAsWritten(s, input).value.cells == DeleteColumn(s, input).value.cells
      && DeleteColumnAsWritten(s, input).value.rules == DeleteColumn(s, input).value.rules
  {
    if input.Some? && input.value < |s.headerList| && input.value >= |s.labels| {
      assert input.value == 0 && |s.labels| == 0;
      assert DropColumn(s.cells, 0) == s.cells;
    }
  }

  /** Where the table and the window agree on the column names, the intended handler and
      the written one do the same thing. */
  lemma DeleteColumnAgreesWhenSynced(s: Sheet, col: int)
    requires WellFormed(s) && Synced(s) && ColumnChoice(s, col) && col < |s.labels|
    ensures DeleteColumnAsWritten(s, Some(col)) == DeleteColumn(s, Some(col))
  {
  }
}

=== FILE: matching.dfy ===
/** The filter predicate `checkCondition`: a case-insensitive test of one cell's plain text
    against one condition value. */
module Matching {
  import opened PyStr

  /** The operator names the filter dialog offers. */
  const OpContains := "contains"
  const OpStartsWith := "starts with"
  const OpEndsWith := "ends with"
  const OpEquals := "equals"

  predicate IsOperator(operator: string) {
    operator in [OpContains, OpStartsWith, OpEndsWith, OpEquals]
  }

  /** Lower both sides, then apply the operator; an operator the function does not know
      never matches. */
  function CheckCondition(cellText: string, operator: string, value: string): (r: bool)
    ensures operator == OpContains ==> (r <==> Occurs(Lower(value), Lower(cellText)))
    ensures operator == OpStartsWith ==> (r <==> Lower(value) <= Lower(cellText))
    ensures operator == OpEndsWith ==> (r <==> IsSuffix(Lower(value), Lower(cellText)))
    ensures operator == OpEquals ==> (r <==> Lower(cellText) == Lower(value))
    ensures !IsOperator(operator) ==> !r
  {
    var cell := Lower(cellText);
    var v := Lower(value);
    if operator == OpContains then Contains(cell, v)
    else if operator == OpStartsWith then StartsWith(cell, v)
    else if operator == OpEndsWith then EndsWith(cell, v)
    else if operator == OpEquals then cell == v
    else false
  }

  /** Matching ignores case on both sides: lowering the cell text or the value first does
      not change the answer. */
  lemma CaseInsensitive(cellText: string, operator: string, value: string)
    ensures CheckCondition(Lower(cellText), operator, Lower(value)) == CheckCondition(cellText, operator, value)
  {
    LowerIdempotent(cellText);
    LowerIdempotent(value);
  }

  /** The operators are ordered by strength: a cell that equals the value also starts and
      ends with it, and one that starts or ends with it also contains it. */
  lemma OperatorStrength(cellText: string, value: string)
    ensures CheckCondition(cellText, OpEquals, value) ==> CheckCondition(cellText, OpStartsWith, value)
    ensures CheckCondition(cellText, OpEquals, value) ==> CheckCondition(cellText, OpEndsWith, value)
    ensures CheckCondition(cellText, OpStartsWith, value) ==> CheckCondition(cellText, OpContains, value)
    ensures CheckCondition(cellText, OpEndsWith, value) ==> CheckCondition(cellText, OpContains, value)
  {
    var c, v := Lower(cellText), Lower(value);
    OccursBase(v, c);
    if IsSuffix(v, c) {
      assert v <= c[|c| - |v|..];
    }
    if c == v {
      assert c[|c| - |v|..] == c;
    }
  }

  /** An empty value is contained in, starts and ends every cell, and equals only the
      empty cell. */
  lemma EmptyValue(cellText: string)
    ensures CheckCondition(cellText, OpContains, "")
    ensures CheckCondition(cellText, OpStartsWith, "")
    ensures CheckCondition(cellText, OpEndsWith, "")
    ensures CheckCondition(cellText, OpEquals, "") <==> cellText == ""
  {
    OccursBase("", Lower(cellText));
    assert Lower(cellText)[|Lower(cellText)|..] == "";
  }
}

=== FILE: prelude.dfy ===
/** Failure-carrying datatypes shared by the LitVis model. */
module Prelude {

  /** Python's "value or None"; also used for a dialog that was cancelled. */
  datatype Option<+T> = None | Some(value: T) {

    /** The wrapped value, or `default` when there is none (Python's `dict.get(key, default)`). */
    function GetOr(default: T): T {
      match this
      case Some(v) => v
      case None => default
    }
  }

  /** What one event handler of the main window leaves behind:
      - Done: the handler ran to the end, with the new state;
      - Warning: the handler showed a message box and changed nothing;
      - Crash: the handler raised a Python exception that nothing catches. Since PyQt 5.5 such
        an exception in a slot calls qFatal, which ends the application. */
  datatype Outcome<+T> = Done(value: T) | Warning(message: string) | Crash(reason: string)
}

=== FILE: project.dfy ===
/** Project persistence: the snapshot `saveProject` writes and the normalisation
    `loadProject` applies when it rebuilds the table from a file. The file is a JSON object;
    a key may be missing, and `projectData.get(key, default)` then supplies the default. */
module Project {
  import opened Prelude
  import opened Cells
  import opened Rules
  import opened Grid

  /** The keys of a project file that the table is rebuilt from (None: the key is absent). */
  datatype ProjectFile = ProjectFile(
    headers: Option<seq<string>>,
    rows: Option<seq<seq<string>>>,
    rules: Option<RuleSet>)

  /** `saveProject`: the text of every header section and of every cell, a missing item
      written as "", and the delegate's rules. */
  function Save(s: Sheet): (f: ProjectFile)
    requires WellFormed(s)
    ensures f.headers.Some? && f.rows.Some? && f.rules == Some(s.rules)
    ensures |f.headers.value| == |s.labels| && |f.rows.value| == |s.cells|
    ensures forall r | 0 <= r < |s.cells| :: |f.rows.value[r]| == |s.labels|
  {
    ProjectFile(Some(Texts(s.labels)),
                Some(seq(|s.cells|, r requires 0 <= r < |s.cells| => Texts(s.cells[r]))),
                Some(s.rules))
  }

  /** A file row cut or padded with "" to `n` cells. */
  function Fit(row: seq<string>, n: nat): seq<string> {
    if |row| >= n then row[..n] else row + seq(n - |row|, _ => "")
  }

  /** The table `loadProject` builds from the file's headers and rows: one section per header
      name, one row per file row, and in each row one item per header, taken from the file
      row where it has a cell there and "" where it does not. */
  function LoadedCells(headers: seq<string>, rows: seq<seq<string>>): (cells: seq<seq<Cell>>)
    ensures |cells| == |rows|
    ensures forall r | 0 <= r < |rows| :: |cells[r]| == |headers|
  {
    seq(|rows|, r requires 0 <= r < |rows| =>
      seq(|headers|, c requires 0 <= c < |headers| => Item(if c < |rows[r]| then rows[r][c] else "")))
  }

  /** `loadProject` as written: the table and the rules are replaced, but `self.headers`
      keeps whatever names the window had before. */
  function LoadAsWritten(s: Sheet, f: ProjectFile): (r: Sheet)
    ensures WellFormed(r)
    ensures r == Load(s, f).(headerList := s.headerList)
  {
    var headers := f.headers.GetOr([]);
    Sheet(s.headerList, Items(headers), LoadedCells(headers, f.rows.GetOr([])), f.rules.GetOr([]))
  }

  /** `loadProject` as intended: the window's header list becomes the file's header list too. */
  function Load(s: Sheet, f: ProjectFile): (r: Sheet)
    ensures WellFormed(r) && Synced(r)
  {
    var headers := f.headers.GetOr([]);
    Sheet(headers, Items(headers), LoadedCells(headers, f.rows.GetOr([])), f.rules.GetOr([]))
  }

  /** After a load the table has one row per file row and one column per file header; each
      row's texts are the file row cut or padded with "" to the number of headers; every
      position holds an item; the rules are the file's rules, or none when the key is absent. */
  lemma LoadNormalises(s: Sheet, f: ProjectFile)
    ensures var r, headers, rows := Load(s, f), f.headers.GetOr([]), f.rows.GetOr([]);
      && Texts(r.labels) == headers
      && |r.cells| == |rows|
      && (forall i | 0 <= i < |rows| :: Texts(r.cells[i]) == Fit(rows[i], |headers|) && AllItems(r.cells[i]))
      && r.rules == (if f.rules.Some? then f.rules.value else [])
  {
    var r, headers, rows := Load(s, f), f.headers.GetOr([]), f.rows.GetOr([]);
    TextsOfItems(headers);
    forall i | 0 <= i < |rows|
      ensures Texts(r.cells[i]) == Fit(rows[i], |headers|)
    {
      var fit := Fit(rows[i], |headers|);
      assert |fit| == |headers|;
      assert forall c | 0 <= c < |headers| :: Texts(r.cells[i])[c] == fit[c];
    }
  }

  /** Loading the snapshot of a table gives back the same header names, the same cell texts
      and the same rules, in the same places. */
  lemma SaveLoadRoundTrip(before: Sheet, s: Sheet)
    requires WellFormed(s)
    ensures var r := Load(before, Save(s));
      && Texts(r.labels) == Texts(s.labels)
      && |r.cells| == |s.cells|
      && (forall i | 0 <= i < |s.cells| :: Texts(r.cells[i]) == Texts(s.cells[i]))
      && r.rules == s.rules
  {
    var f := Save(s);
    LoadNormalises(before, f);
    forall i | 0 <= i < |s.cells|
      ensures Fit(f.rows.value[i], |s.labels|) == Texts(s.cells[i])
    {
      assert f.rows.value[i][..|s.labels|] == f.rows.value[i];
    }
  }

  /** When the window's names agree with the table and every cell holds an item, saving and
      loading restores the state exactly. */
  lemma SaveLoadIdentity(before: Sheet, s: Sheet)
    requires WellFormed(s) && Synced(s)
    requires forall i | 0 <= i < |s.cells| :: AllItems(s.cells[i])
    ensures Load(before, Save(s)) == s
  {
    var r := Load(before, Save(s));
    SaveLoadRoundTrip(before, s);
    forall i | 0 <= i < |s.cells|
      ensures r.cells[i] == s.cells[i]
    {
      ItemsOfTexts(s.cells[i]);
      ItemsOfTexts(r.cells[i]);
    }
    assert Items(Texts(s.labels)) == s.labels;
    assert r.headerList == Texts(s.labels);
  }

  /** As written, a load leaves the window's header list behind, and the next `addColumn`
      copies the stale list over the loaded names: here the loaded column "C" is renamed
      "D" and the new column is left without a name. The intended load names the columns
      "A", "B", "C", "D". */
  lemma StaleHeadersAfterLoad()
    ensures var f := ProjectFile(Some(["A", "B", "C"]), Some([]), None);
      && AddColumn(LoadAsWritten(InitialAsWritten(), f), Some("D")).labels
         == [Item("Title"), Item("Author"), Item("D"), NoItem]
      && AddColumn(Load(Initial(), f), Some("D")).labels
         == [Item("A"), Item("B"), Item("C"), Item("D")]
  {
    var f := ProjectFile(Some(["A", "B", "C"]), Some([]), None);
    var stale := LoadAsWritten(InitialAsWritten(), f);
    assert stale.labels == [Item("A"), Item("B"), Item("C")];
    assert stale.headerList == ["Title", "Author"];
    var synced := Load(Initial(), f);
    assert synced.labels == [Item("A"), Item("B"), Item("C")];
  }

  /** As written, after loading a file with more columns than the window's list, deleting the
      last column crashes the application. */
  lemma DeleteAfterLoadCrashes()
    ensures var f := ProjectFile(Some(["A", "B", "C"]), Some([]), None);
      DeleteColumnAsWritten(LoadAsWritten(InitialAsWritten(), f), Some(2)).Crash?
  {
    var f := ProjectFile(Some(["A", "B", "C"]), Some([]), None);
    assert |LoadAsWritten(InitialAsWritten(), f).labels| == 3;
  }
}

=== FILE: pyreplace.dfy ===
/** Python's `str.replace(old, new)`, and the `str.split` / `str.join` pair that documents it:
    with a non-empty `old`, `s.replace(old, new) == new.join(s.split(old))`. Occurrences are
    found from left to right and never overlap. */
module PyReplace {
  import opened PyStr

  /** Python's `sep.join(parts)`. */
  function Join(parts: seq<string>, sep: string): string
    decreases |parts|
  {
    if |parts| == 0 then []
    else if |parts| == 1 then parts[0]
    else parts[0] + sep + Join(parts[1..], sep)
  }

  /** Python's `s.split(sep)` for a non-empty separator: cut `s` at every occurrence of
      `sep`, scanning left to right. Always at least one piece ("".split(x) == [""]). */
  function Split(s: string, sep: string): (parts: seq<string>)
    requires sep != []
    ensures |parts| >= 1
    decreases |s|
  {
    if |s| == 0 then [[]]
    else if sep <= s then [[]] + Split(s[|sep|..], sep)
    else
      var rest := Split(s[1..], sep);
      [[s[0]] + rest[0]] + rest[1..]
  }

  /** `s.replace(target, repl)` for a non-empty `target`: at each position either `target` starts
      here and is replaced, or one character is copied. A string in which `target` does not
      occur comes back unchanged. */
  function ReplaceNonEmpty(s: string, target: string, repl: string): (r: string)
    requires target != []
    ensures !Occurs(target, s) ==> r == s
    decreases |s|
  {
    if |s| == 0 then []
    else if target <= s then
      OccursBase(target, s);
      repl + ReplaceNonEmpty(s[|target|..], target, repl)
    else
      OccursStep(target, s);
      assert s == [s[0]] + s[1..];
      [s[0]] + ReplaceNonEmpty(s[1..], target, repl)
  }

  /** `s.replace("", repl)`: Python inserts `repl` before every character and at the end. */
  function InsertAround(s: string, repl: string): (r: string)
    ensures |r| == |s| + (|s| + 1) * |repl|
    decreases |s|
  {
    if |s| == 0 then repl
    else repl + [s[0]] + InsertAround(s[1..], repl)
  }

  /** The characters of `s`, each as a one-character string. */
  function Chars(s: string): seq<string> {
    seq(|s|, i requires 0 <= i < |s| => [s[i]])
  }

  /** Python's `s.replace(target, repl)` with no count. An absent non-empty target changes
      nothing; an empty target puts `repl` into each of the `|s| + 1` gaps of `s`, that is,
      joins the characters of `s`, with an empty piece at each end, by `repl`. */
  function Replace(s: string, target: string, repl: string): (r: string)
    ensures target != [] && !Occurs(target, s) ==> r == s
    ensures target == [] ==> |r| == |s| + (|s| + 1) * |repl|
    ensures target == [] ==> r == Join([[]] + Chars(s) + [[]], repl)
  {
    if target == [] then
      InsertAroundIsJoin(s, repl);
      InsertAround(s, repl)
    else ReplaceNonEmpty(s, target, repl)
  }

  /** Inserting `repl` around every character is joining the characters, with an empty piece
      at each end, by `repl`. */
  lemma {:induction false} InsertAroundIsJoin(s: string, repl: string)
    ensures InsertAround(s, repl) == Join([[]] + Chars(s) + [[]], repl)
    decreases |s|
  {
    if |s| == 0 {
      assert [[]] + Chars(s) + [[]] == [[], []];
      assert Join([[], []], repl) == [] + repl + Join([[]], repl);
    } else {
      InsertAroundIsJoin(s[1..], repl);
      var t := Chars(s[1..]) + [[]];
      assert Chars(s) + [[]] == [[s[0]]] + t;
      assert ([[s[0]]] + t)[1..] == t;
      assert Join([[s[0]]] + t, repl) == [s[0]] + repl + Join(t, repl);
      JoinEmptyHead(Chars(s) + [[]], repl);
      assert [[]] + Chars(s) + [[]] == [[]] + (Chars(s) + [[]]);
      JoinEmptyHead(t, repl);
      assert [[]] + Chars(s[1..]) + [[]] == [[]] + t;
    }
  }

  /** Joining a list whose first piece is empty puts the separator first. */
  lemma JoinEmptyHead(parts: seq<string>, sep: string)
    requires |parts| >= 1
    ensures Join([[]] + parts, sep) == sep + Join(parts, sep)
  {
    assert ([[]] + parts)[1..] == parts;
  }

  /** Prepending a character to the first piece prepends it to the joined string. */
  lemma JoinConsHead(c: char, parts: seq<string>, sep: string)
    requires |parts| >= 1
    ensures Join([[c] + parts[0]] + parts[1..], sep) == [c] + Join(parts, sep)
  {
    var ps := [[c] + parts[0]] + parts[1..];
    if |parts| > 1 {
      assert ps[1..] == parts[1..];
    }
  }

  /** `str.replace` with a non-empty `target` is `repl.join(s.split(target))`. */
  lemma {:induction false} ReplaceIsJoinOfSplit(s: string, target: string, repl: string)
    requires target != []
    ensures Replace(s, target, repl) == Join(Split(s, target), repl)
    decreases |s|
  {
    if |s| == 0 {
    } else if target <= s {
      ReplaceIsJoinOfSplit(s[|target|..], target, repl);
      JoinEmptyHead(Split(s[|target|..], target), repl);
    } else {
      ReplaceIsJoinOfSplit(s[1..], target, repl);
      JoinConsHead(s[0], Split(s[1..], target), repl);
    }
  }

  /** Joining the pieces of a split with the same separator gives the string back. */
  lemma {:induction false} SplitJoinRoundTrip(s: string, sep: string)
    requires sep != []
    ensures Join(Split(s, sep), sep) == s
    decreases |s|
  {
    if |s| == 0 {
    } else if sep <= s {
      SplitJoinRoundTrip(s[|sep|..], sep);
      JoinEmptyHead(Split(s[|sep|..], sep), sep);
      assert s == sep + s[|sep|..];
    } else {
      SplitJoinRoundTrip(s[1..], sep);
      JoinConsHead(s[0], Split(s[1..], sep), sep);
      assert s == [s[0]] + s[1..];
    }
  }

  /** The first piece of a split is a prefix of the string. */
  lemma {:induction false} SplitHeadIsPrefix(s: string, sep: string)
    requires sep != []
    ensures Split(s, sep)[0] <= s
    decreases |s|
  {
    if |s| > 0 && !(sep <= s) {
      SplitHeadIsPrefix(s[1..], sep);
    }
  }

  /** When a split gives more than one piece, the first piece followed by the separator starts
      the string. */
  lemma {:induction false} SplitHeadThenSeparator(s: string, sep: string)
    requires sep != []
    ensures |Split(s, sep)| > 1 ==> Split(s, sep)[0] + sep <= s
    decreases |s|
  {
    if |s| > 0 && !(sep <= s) {
      SplitHeadThenSeparator(s[1..], sep);
    }
  }

  /** A split cuts at the leftmost occurrence first: no occurrence of the separator starts
      inside a piece, not even one that runs on into the separator cut after it. */
  lemma {:induction false} SplitCutsLeftmost(s: string, sep: string)
    requires sep != []
    ensures forall k | 0 <= k < |Split(s, sep)| - 1 :: !Occurs(sep, Split(s, sep)[k] + sep[..|sep| - 1])
    decreases |s|
  {
    var parts := Split(s, sep);
    if |s| == 0 {
    } else if sep <= s {
      var rest := Split(s[|sep|..], sep);
      SplitCutsLeftmost(s[|sep|..], sep);
      forall k | 1 <= k < |parts| - 1
        ensures !Occurs(sep, parts[k] + sep[..|sep| - 1])
      {
        assert parts[k] == rest[k - 1];
        assert 0 <= k - 1 < |rest| - 1;
        assert !Occurs(sep, rest[k - 1] + sep[..|sep| - 1]);
      }
    } else {
      var rest := Split(s[1..], sep);
      SplitCutsLeftmost(s[1..], sep);
      forall k | 1 <= k < |parts| - 1
        ensures !Occurs(sep, parts[k] + sep[..|sep| - 1])
      {
        assert parts[k] == rest[k];
        assert 0 <= k < |rest| - 1;
        assert !Occurs(sep, rest[k] + sep[..|sep| - 1]);
      }
      if |parts| > 1 {
        SplitHeadThenSeparator(s[1..], sep);
        var h := parts[0] + sep[..|sep| - 1];
        assert h == [s[0]] + (rest[0] + sep[..|sep| - 1]);
        assert h[1..] == rest[0] + sep[..|sep| - 1];
        OccursStep(sep, h);
      }
    }
  }

  /** No piece of a split contains the separator: every occurrence was cut out. */
  lemma {:induction false} SplitPiecesAvoidSeparator(s: string, sep: string)
    requires sep != []
    ensures forall k | 0 <= k < |Split(s, sep)| :: !Occurs(sep, Split(s, sep)[k])
    decreases |s|
  {
    var parts := Split(s, sep);
    if |s| == 0 {
      OccursBase(sep, parts[0]);
    } else if sep <= s {
      SplitPiecesAvoidSeparator(s[|sep|..], sep);
      OccursBase(sep, parts[0]);
      assert forall k | 1 <= k < |parts| :: parts[k] == Split(s[|sep|..], sep)[k - 1];
    } else {
      var rest := Split(s[1..], sep);
      SplitPiecesAvoidSeparator(s[1..], sep);
      SplitHeadIsPrefix(s[1..], sep);
      var head := [s[0]] + rest[0];
      assert head == parts[0];
      OccursStep(sep, head);
      assert head[1..] == rest[0];
      assert forall k | 1 <= k < |parts| :: parts[k] == rest[k];
    }
  }
}

=== FILE: pystr.dfy ===
/** The few Python `str` operations LitVis relies on, defined over `seq<char>`.
    Each scanning operation is written the way it is computed (one character at a time)
    and carries, as its contract, the declarative meaning Python documents for it. */
module PyStr {

  /** `needle` occurs somewhere inside `s` (Python's `needle in s`). */
  ghost predicate Occurs(needle: string, s: string) {
    exists i | 0 <= i <= |s| :: needle <= s[i..]
  }

  /** `suffix` ends `s`. */
  ghost predicate IsSuffix(suffix: string, s: string) {
    |suffix| <= |s| && s[|s| - |suffix|..] == suffix
  }

  /** An occurrence in the tail is an occurrence in the whole string, and an occurrence in the
      whole string that is not at position 0 is one in the tail. */
  lemma OccursStep(needle: string, s: string)
    requires |s| > 0
    ensures Occurs(needle, s) <==> (needle <= s || Occurs(needle, s[1..]))
  {
    if Occurs(needle, s) && !(needle <= s) {
      var i :| 0 <= i <= |s| && needle <= s[i..];
      assert i != 0;
      assert s[1..][i - 1..] == s[i..];
    }
    if Occurs(needle, s[1..]) {
      var i :| 0 <= i <= |s[1..]| && needle <= s[1..][i..];
      assert s[1..][i..] == s[i + 1..];
    }
    if needle <= s {
      assert s[0..] == s;
    }
  }

  /** Python's `needle in s`: scan every start position from left to right. */
  function Contains(s: string, needle: string): (r: bool)
    ensures r <==> Occurs(needle, s)
    decreases |s|
  {
    OccursBase(needle, s);
    if needle <= s then true
    else if |s| == 0 then false
    else
      OccursStep(needle, s);
      Contains(s[1..], needle)
  }

  /** A needle that starts `s` occurs in it; in the empty string only the empty needle occurs. */
  lemma OccursBase(needle: string, s: string)
    ensures needle <= s ==> Occurs(needle, s)
    ensures |s| == 0 ==> (Occurs(needle, s) <==> needle <= s)
  {
    if |s| == 0 && Occurs(needle, s) {
      var i :| 0 <= i <= |s| && needle <= s[i..];
      assert s[i..] == s;
    }
    if needle <= s {
      assert s[0..] == s;
    }
  }

  /** Python's `s.startswith(prefix)`, comparing character by character. */
  function StartsWith(s: string, prefix: string): (r: bool)
    ensures r <==> prefix <= s
    decreases |prefix|
  {
    if |prefix| == 0 then true
    else if |s| == 0 then false
    else s[0] == prefix[0] && StartsWith(s[1..], prefix[1..])
  }

  /** Python's `s.endswith(suffix)`, comparing character by character from the end. */
  function EndsWith(s: string, suffix: string): (r: bool)
    ensures r <==> IsSuffix(suffix, s)
    decreases |suffix|
  {
    if |suffix| == 0 then true
    else if |s| == 0 then false
    else
      var r := s[|s| - 1] == suffix[|suffix| - 1] && EndsWith(s[..|s| - 1], suffix[..|suffix| - 1]);
      assert IsSuffix(suffix, s) ==> s[|s| - |suffix|..][..|suffix| - 1] == s[..|s| - 1][|s| - |suffix|..];
      assert IsSuffix(suffix[..|suffix| - 1], s[..|s| - 1]) && s[|s| - 1] == suffix[|suffix| - 1]
        ==> s[|s| - |suffix|..] == s[..|s| - 1][|s| - |suffix|..] + [s[|s| - 1]];
      assert suffix == suffix[..|suffix| - 1] + [suffix[|suffix| - 1]];
      r
  }

  /** Python's `str.lower`, restricted to ASCII: 'A'..'Z' become 'a'..'z', every other
      character is left as it is. */
  function LowerChar(c: char): char {
    if 'A' <= c <= 'Z' then (c as int + 32) as char else c
  }

  function Lower(s: string): (r: string)
    ensures |r| == |s|
  {
    seq(|s|, i requires 0 <= i < |s| => LowerChar(s[i]))
  }

  /** Lowering twice is lowering once. */
  lemma LowerIdempotent(s: string)
    ensures Lower(Lower(s)) == Lower(s)
  {
    assert forall i | 0 <= i < |s| :: LowerChar(LowerChar(s[i])) == LowerChar(s[i]);
  }

  /** Python's `str.isspace` for one character: the ASCII whitespace and separator controls
      and the Unicode spaces. */
  predicate IsSpace(c: char) {
    var n := c as int;
    n == 0x20 || 0x09 <= n <= 0x0D || 0x1C <= n <= 0x1F || n == 0x85 || n == 0xA0
    || n == 0x1680 || 0x2000 <= n <= 0x200A || n == 0x2028 || n == 0x2029
    || n == 0x202F || n == 0x205F || n == 0x3000
  }

  ghost predicate AllSpace(s: string) {
    forall k | 0 <= k < |s| :: IsSpace(s[k])
  }

  /** Python's `s.lstrip()`: drops the whitespace in front. */
  function StripStart(s: string): (r: string)
    ensures |r| <= |s| && r == s[|s| - |r|..]
    ensures forall k | 0 <= k < |s| - |r| :: IsSpace(s[k])
    ensures r == [] || !IsSpace(r[0])
    decreases |s|
  {
    if |s| > 0 && IsSpace(s[0]) then StripStart(s[1..]) else s
  }

  /** Python's `s.rstrip()`: drops the whitespace at the end. */
  function StripEnd(s: string): (r: string)
    ensures |r| <= |s| && r == s[..|r|]
    ensures forall k | |r| <= k < |s| :: IsSpace(s[k])
    ensures r == [] || !IsSpace(r[|r| - 1])
    decreases |s|
  {
    if |s| > 0 && IsSpace(s[|s| - 1]) then
      var r := StripEnd(s[..|s| - 1]);
      assert s[..|s| - 1][..|r|] == s[..|r|];
      r
    else s
  }

  /** `r` is the part of `s` from position `i`, with only whitespace before and after it. */
  ghost predicate CutAt(r: string, s: string, i: int) {
    && 0 <= i <= |s| - |r|
    && r == s[i..i + |r|]
    && (forall k | 0 <= k < i :: IsSpace(s[k]))
    && (forall k | i + |r| <= k < |s| :: IsSpace(s[k]))
  }

  /** `r` is what is left of `s` once the whitespace at both ends is cut off. */
  ghost predicate IsStripOf(r: string, s: string) {
    exists i :: CutAt(r, s, i)
  }

  /** Python's `s.strip()`: the part of `s` left after removing whitespace at both ends; it
      neither starts nor ends with whitespace, and it is empty exactly when `s` is blank. */
  function Strip(s: string): (r: string)
    ensures IsStripOf(r, s)
    ensures r == [] || (!IsSpace(r[0]) && !IsSpace(r[|r| - 1]))
    ensures r == [] <==> AllSpace(s)
  {
    var a := StripStart(s);
    var r := StripEnd(a);
    StripCut(s, a, r);
    r
  }

  /** The cut `Strip` makes, from what `StripStart` and `StripEnd` promise. */
  lemma StripCut(s: string, a: string, r: string)
    requires |a| <= |s| && a == s[|s| - |a|..] && forall k | 0 <= k < |s| - |a| :: IsSpace(s[k])
    requires |r| <= |a| && r == a[..|r|] && forall k | |r| <= k < |a| :: IsSpace(a[k])
    requires r == [] || !IsSpace(r[0])
    ensures CutAt(r, s, |s| - |a|)
    ensures r == [] <==> AllSpace(s)
  {
    var i := |s| - |a|;
    forall k | i + |r| <= k < |s|
      ensures IsSpace(s[k])
    {
      assert s[k] == a[k - i];
    }
    assert r == s[i..i + |r|];
    if r != [] {
      assert r[0] == s[i];
    }
  }

  /** The decimal digit character for `d`. */
  function DigitChar(d: nat): char
    requires d < 10
  {
    "0123456789"[d]
  }

  predicate IsDigit(c: char) {
    '0' as int <= c as int <= '9' as int
  }

  /** The number a string of decimal digits denotes (Python's `int(s)` on such strings). */
  function DigitsValue(s: string): nat
    requires forall i | 0 <= i < |s| :: IsDigit(s[i])
  {
    if |s| == 0 then 0
    else
      assert IsDigit(s[|s| - 1]);
      DigitsValue(s[..|s| - 1]) * 10 + (s[|s| - 1] as int - '0' as int)
  }

  /** Python's `str(n)` for a non-negative integer. */
  function NatToString(n: nat): (r: string)
    ensures |r| >= 1
    ensures forall i | 0 <= i < |r| :: IsDigit(r[i])
    ensures r[0] == '0' ==> n == 0
    decreases n
  {
    if n < 10 then [DigitChar(n)]
    else NatToString(n / 10) + [DigitChar(n % 10)]
  }

  /** Reading back the digits `str(n)` printed gives `n` again. */
  lemma {:induction false} NatToStringRoundTrip(n: nat)
    ensures DigitsValue(NatToString(n)) == n
    decreases n
  {
    var r := NatToString(n);
    if n < 10 {
      assert r[..0] == [];
    } else {
      NatToStringRoundTrip(n / 10);
      assert r[..|r| - 1] == NatToString(n / 10);
    }
  }
}

=== FILE: render.dfy ===
/** The conditional-formatting substitution of the cell delegate's `paint`: before the cell's
    HTML is laid out, every rule wraps each occurrence of its keyword in a coloured span. The
    substitution works on a copy of the cell's text; the stored cell is never written. */
module Render {
  import opened PyStr
  import opened PyReplace
  import opened Cells
  import opened Rules

  /** The markup one rule puts in place of its keyword. */
  function Span(word: string, color: string): string {
    "<span style=\"color: " + color + ";\">" + word + "</span>"
  }

  /** The rules in dict order, each applied with `str.replace` to the text the previous
      rules left. When no keyword occurs in the text (in particular when there are no rules)
      the text comes out unchanged. */
  function ApplyRules(text: string, rules: RuleSet): (r: string)
    ensures (forall i | 0 <= i < |rules| :: rules[i].0 != [] && !Occurs(rules[i].0, text)) ==> r == text
    decreases |rules|
  {
    if |rules| == 0 then text
    else ApplyRules(Replace(text, rules[0].0, Span(rules[0].0, rules[0].1)), rules[1..])
  }

  /** The HTML `paint` lays out for one position; a cell in which no keyword occurs is laid
      out as it is stored. */
  function PaintText(cell: Cell, rules: RuleSet): (r: string)
    ensures (forall i | 0 <= i < |rules| :: rules[i].0 != [] && !Occurs(rules[i].0, Text(cell))) ==> r == Text(cell)
  {
    ApplyRules(Text(cell), rules)
  }

  /** `index.data() or ""`: a position without an item is painted like one holding an empty
      item. */
  lemma MissingItemPaintsAsEmpty(rules: RuleSet)
    ensures PaintText(NoItem, rules) == PaintText(Item(""), rules)
  {
  }

  /** Applying a rule list is applying its first part, then its second part on the result:
      the rules act one after the other in insertion order. */
  lemma {:induction false} ApplyRulesConcat(text: string, first: RuleSet, second: RuleSet)
    ensures ApplyRules(text, first + second) == ApplyRules(ApplyRules(text, first), second)
    decreases |first|
  {
    if |first| == 0 {
      assert first + second == second;
    } else {
      var next := Replace(text, first[0].0, Span(first[0].0, first[0].1));
      assert (first + second)[0] == first[0];
      assert (first + second)[1..] == first[1..] + second;
      ApplyRulesConcat(next, first[1..], second);
    }
  }

  /** One rule with a non-empty keyword cuts the text at every non-overlapping occurrence of
      the keyword, scanning from the left, and puts the span where each occurrence was: the
      pieces between the occurrences join back to the text and contain no occurrence, and no
      occurrence starts inside a piece, so each cut is at the leftmost occurrence left. */
  lemma OneRuleHighlightsEveryOccurrence(text: string, word: string, color: string)
    requires word != []
    ensures var pieces := Split(text, word);
      && Join(pieces, word) == text
      && (forall k | 0 <= k < |pieces| :: !Occurs(word, pieces[k]))
      && (forall k | 0 <= k < |pieces| - 1 :: !Occurs(word, pieces[k] + word[..|word| - 1]))
      && ApplyRules(text, [(word, color)]) == Join(pieces, Span(word, color))
  {
    SplitJoinRoundTrip(text, word);
    SplitPiecesAvoidSeparator(text, word);
    SplitCutsLeftmost(text, word);
    ReplaceIsJoinOfSplit(text, word, Span(word, color));
  }
}

=== FILE: rules.dfy ===
/** Conditional-formatting rules: an insertion-ordered Python dict from keyword to colour
    name, and the edits the conditional-formatting dialog makes to it. */
module Rules {
  import opened Prelude

  /** One rule: the keyword to highlight and its colour. */
  type Rule = (string, string)

  /** A Python dict of rules, in insertion order. */
  type RuleSet = seq<Rule>

  /** `list(d.keys())` */
  function Keys(d: RuleSet): (ks: seq<string>)
    ensures |ks| == |d|
  {
    seq(|d|, i requires 0 <= i < |d| => d[i].0)
  }

  predicate Distinct(ks: seq<string>) {
    forall i, j | 0 <= i < j < |ks| :: ks[i] != ks[j]
  }

  /** A sequence of pairs is a dict when no key appears twice. */
  predicate IsDict(d: RuleSet) {
    Distinct(Keys(d))
  }

  /** `d.get(k)`: the value of the first pair with key `k`. */
  function Get(d: RuleSet, k: string): Option<string>
    decreases |d|
  {
    if |d| == 0 then None
    else if d[0].0 == k then Some(d[0].1)
    else Get(d[1..], k)
  }

  lemma KeysCons(x: Rule, d: RuleSet)
    ensures Keys([x] + d) == [x.0] + Keys(d)
    ensures ([x] + d)[1..] == d
  {
  }

  lemma KeysConcat(a: RuleSet, b: RuleSet)
    ensures Keys(a + b) == Keys(a) + Keys(b)
  {
  }

  lemma KeysSlice(d: RuleSet, i: nat)
    requires i <= |d|
    ensures Keys(d[..i]) == Keys(d)[..i]
    ensures Keys(d[i..]) == Keys(d)[i..]
  {
  }

  /** A key has a value exactly when it is one of the keys. */
  lemma {:induction false} GetDefined(d: RuleSet, k: string)
    ensures Get(d, k).Some? <==> k in Keys(d)
    decreases |d|
  {
    if |d| > 0 {
      GetDefined(d[1..], k);
      KeysCons(d[0], d[1..]);
      assert d == [d[0]] + d[1..];
    }
  }

  /** Looking up in a concatenation looks in the first part, then in the second. */
  lemma {:induction false} GetConcat(a: RuleSet, b: RuleSet, k: string)
    ensures Get(a + b, k) == if k in Keys(a) then Get(a, k) else Get(b, k)
    decreases |a|
  {
    if |a| > 0 {
      GetConcat(a[1..], b, k);
      KeysCons(a[0], a[1..]);
      assert a == [a[0]] + a[1..];
      assert (a + b)[1..] == a[1..] + b;
      assert (a + b)[0] == a[0];
    } else {
      assert a + b == b;
    }
  }

  /** `d[k] = v`: an existing key keeps its place and takes the new value; a new key is
      appended at the end. No other key changes. */
  function Put(d: RuleSet, k: string, v: string): (r: RuleSet)
    ensures Keys(r) == if k in Keys(d) then Keys(d) else Keys(d) + [k]
    ensures Get(r, k) == Some(v)
    ensures forall k' | k' != k :: Get(r, k') == Get(d, k')
    decreases |d|
  {
    if |d| == 0 then [(k, v)]
    else
      KeysCons(d[0], d[1..]);
      assert d == [d[0]] + d[1..];
      if d[0].0 == k then
        KeysCons((k, v), d[1..]);
        [(k, v)] + d[1..]
      else
        var rest := Put(d[1..], k, v);
        KeysCons(d[0], rest);
        [d[0]] + rest
  }

  /** Assigning a key keeps a dict a dict. */
  lemma PutKeepsDict(d: RuleSet, k: string, v: string)
    ensures IsDict(d) ==> IsDict(Put(d, k, v))
  {
  }

  /** `del d[list(d.keys())[i]]`: the i-th pair goes, the others keep their order and values. */
  function RemoveAt(d: RuleSet, i: int): (r: RuleSet)
    requires 0 <= i < |d|
    ensures Keys(r) == Keys(d)[..i] + Keys(d)[i + 1..]
    ensures IsDict(d) ==> IsDict(r) && Get(r, d[i].0) == None
    ensures IsDict(d) ==> forall k | k != d[i].0 :: Get(r, k) == Get(d, k)
  {
    var r := d[..i] + d[i + 1..];
    KeysConcat(d[..i], d[i + 1..]);
    KeysSlice(d, i);
    KeysSlice(d, i + 1);
    assert d == d[..i] + ([d[i]] + d[i + 1..]);
    KeysCons(d[i], d[i + 1..]);
    forall k | true
      ensures IsDict(d) ==> k != d[i].0 ==> Get(r, k) == Get(d, k)
      ensures IsDict(d) ==> k == d[i].0 ==> Get(r, k) == None
    {
      GetConcat(d[..i], d[i + 1..], k);
      GetConcat(d[..i], [d[i]] + d[i + 1..], k);
      GetDefined(d[..i], k);
      GetDefined(d[i + 1..], k);
      if IsDict(d) && k == d[i].0 {
        assert Keys(d)[i] == k;
        assert forall j | 0 <= j < i :: Keys(d[..i])[j] == Keys(d)[j];
      }
    }
    r
  }

  /** The colour a new rule starts with. */
  const DefaultColor := "blue"

  /** `addRule`: the word typed in (None when the input dialog was cancelled) becomes a rule
      in the default colour; an empty word is ignored. A word that already is a rule keeps
      its place and is reset to the default colour. */
  function AddRule(d: RuleSet, word: Option<string>): (r: RuleSet)
    ensures word.None? || word.value == "" ==> r == d
    ensures word.Some? && word.value != "" ==>
      && Get(r, word.value) == Some(DefaultColor)
      && (forall k | k != word.value :: Get(r, k) == Get(d, k))
      && Keys(r) == if word.value in Keys(d) then Keys(d) else Keys(d) + [word.value]
  {
    if word.Some? && word.value != "" then Put(d, word.value, DefaultColor) else d
  }

  /** `removeRule`: `row` is the selected list row (negative when none is selected); the
      list shows one row per rule, in dict order. */
  function RemoveRule(d: RuleSet, row: int): (r: RuleSet)
    requires row < |d|
    ensures row < 0 ==> r == d
    ensures row >= 0 ==> Keys(r) == Keys(d)[..row] + Keys(d)[row + 1..]
    ensures row >= 0 && IsDict(d) ==>
      && Get(r, d[row].0) == None
      && forall k | k != d[row].0 :: Get(r, k) == Get(d, k)
  {
    if row >= 0 then RemoveAt(d, row) else d
  }

  /** `changeRuleColor`: the selected rule takes the colour picked (None when the colour
      dialog returned an invalid colour); its place in the dict does not change. */
  function ChangeRuleColor(d: RuleSet, row: int, color: Option<string>): (r: RuleSet)
    requires row < |d|
    ensures row < 0 || color.None? ==> r == d
    ensures row >= 0 && color.Some? ==>
      && Keys(r) == Keys(d)
      && Get(r, d[row].0) == Some(color.value)
      && forall k | k != d[row].0 :: Get(r, k) == Get(d, k)
  {
    if row >= 0 && color.Some? then
      assert Keys(d)[row] == d[row].0;
      Put(d, d[row].0, color.value)
    else d
  }

  /** One button press in the conditional-formatting dialog. */
  datatype RuleEdit =
    | Add(word: Option<string>)
    | Remove(row: int)
    | Recolor(row: int, color: Option<string>)

  /** A selected row is one the list shows. */
  predicate Fits(d: RuleSet, e: RuleEdit) {
    match e
    case Add(_) => true
    case Remove(row) => row < |d|
    case Recolor(row, _) => row < |d|
  }

  function ApplyEdit(d: RuleSet, e: RuleEdit): (r: RuleSet)
    requires Fits(d, e)
    ensures IsDict(d) ==> IsDict(r)
  {
    match e
    case Add(word) =>
      if word.Some? && word.value != "" then
        PutKeepsDict(d, word.value, DefaultColor);
        AddRule(d, word)
      else AddRule(d, word)
    case Remove(row) => RemoveRule(d, row)
    case Recolor(row, color) =>
      if row >= 0 && color.Some? then
        PutKeepsDict(d, d[row].0, color.value);
        ChangeRuleColor(d, row, color)
      else ChangeRuleColor(d, row, color)
  }

  /** Every edit of a session selects a row the list shows at that moment. */
  predicate FitsAll(d: RuleSet, edits: seq<RuleEdit>)
    decreases |edits|
  {
    |edits| == 0 || (Fits(d, edits[0]) && FitsAll(ApplyEdit(d, edits[0]), edits[1..]))
  }

  /** The edits of one dialog session, applied in order. */
  function ApplyEdits(d: RuleSet, edits: seq<RuleEdit>): (r: RuleSet)
    requires FitsAll(d, edits)
    ensures IsDict(d) ==> IsDict(r)
    decreases |edits|
  {
    if |edits| == 0 then d else ApplyEdits(ApplyEdit(d, edits[0]), edits[1..])
  }

  /** `openCFDialog` as written: the dialog edits the very dict object the delegate renders
      with, so the session's edits remain whether the user presses OK or Cancel. */
  function CloseDialogAsWritten(d: RuleSet, edits: seq<RuleEdit>, accepted: bool): (r: RuleSet)
    requires FitsAll(d, edits)
    ensures IsDict(d) ==> IsDict(r)
  {
    ApplyEdits(d, edits)
  }

  /** Adding a rule and then pressing Cancel still leaves the rule in place. */
  lemma CancelKeepsEdits()
    ensures CloseDialogAsWritten([], [Add(Some("x"))], false) == [("x", DefaultColor)]
  {
    assert ApplyEdit([], Add(Some("x"))) == [("x", DefaultColor)];
  }

  /** `openCFDialog` as intended: OK installs the edited rules, Cancel keeps the rules the
      delegate had before the dialog opened. */
  function CloseDialog(d: RuleSet, edits: seq<RuleEdit>, accepted: bool): (r: RuleSet)
    requires FitsAll(d, edits)
    ensures IsDict(d) ==> IsDict(r)
    ensures !accepted ==> r == d
    ensures accepted ==> r == ApplyEdits(d, edits)
  {
    if accepted then ApplyEdits(d, edits) else d
  }
}
